=== FILE: README.md ===
# lucene-demo: the dispatch logic of `App`, in Dafny

`App` is a small command-line search program built on Apache Lucene. It
indexes every `.txt` file under a data directory into two fields,
`filename` and `content`. Then it reads query lines at a prompt until the
user types `q`. Lucene does the tokenising, index writing, query parsing and
scoring. The program itself decides only a few things, and this project
models those:

- **Analyzer selection** (`analysis.dfy`, module `Analysis`). One function
  builds the per-field analyzer configuration: Standard by default, Standard
  for `filename`, Italian for `content`. The index writer and the query
  parser are each built over a fresh call of it (App.java:70, 88), so each
  indexed field records the analyzer that tokenised it, and each search
  records the configuration its query parser analyses the query text with,
  together with the parser's default field.
- **File selection** (`indexing.dfy`, module `Indexing`). The walk over the
  data directory turns each file whose lower-cased name ends with `.txt` into
  one document holding the file's name and text. The file system is a value:
  a tree whose directories carry their listing in the order the listing
  returns it, and a flag for a listing that could not be read.
- **Command classification** (`commands.dfy`, module `Commands`). One input
  line becomes `Quit`, `InvalidSyntax`, `InvalidField` or
  `Search(field, query, 10)`:
  - the `q` test is case-insensitive;
  - the line is split at its first space (`split(" ", 2)`);
  - the first word is matched case-insensitively against `nome` and
    `contenuto`.
- **The prompt loop** (`session.dfy`, module `Session`). Input lines are
  classified one after another:
  - a syntax or field error prints a hint, and the next line is read;
  - a search prints its hits, and the next line is read;
  - `q` ends the session;
  - a query that the query parser rejects ends the session too, because its
    exception leaves the loop;
  - running out of input ends the session with the exception `nextLine`
    throws;
  - a search that fails inside Lucene ends it as well, but the model does not
    cover that case (see Left out).

  The query parser's grammar is a parameter,
  `parses(defaultField, config, query)`.
- Supporting modules:
  - `ascii.dfy` (`Ascii`): case folding for `toLowerCase` and
    `equalsIgnoreCase`;
  - `split.dfy` (`Split`): `String.split` with a one-character separator and
    a positive limit;
  - `optional.dfy` (`Optional`): an option type.

### Behaviour worth knowing

- A query the parser rejects ends the session. `QueryParser.parse` throws
  `ParseException`, nothing inside the loop catches it, so the exception
  leaves `search` and `main` reports it (App.java:116, 51-53).
  `Session.Run` ends with `ParseFailed`.
- `nome ` (a field word with a trailing space) is not a syntax error: the
  split keeps the empty trailing part, so the line is a search for the empty
  query string. Only the query parser can then reject it, which ends the
  session. `Commands.TrailingSpaceSearchesEmpty` and
  `Session.EmptyQueryEndsSession` state this.

### Case folding

The model folds only ASCII letters. The program uses two Java case
mappings:

- `equalsIgnoreCase` compares characters through `Character.toUpperCase`
  and then `Character.toLowerCase`. Under these one-character mappings, the
  only non-ASCII characters that reach an ASCII letter are the dotless i,
  the dotted capital I, the long s and the Kelvin sign. They reach only `i`,
  `s` and `k`. None of these occurs in `q`, `nome` or `contenuto`, so
  matching against those literals is exactly the ASCII match.
- `String.toLowerCase` (App.java:145) runs in the default locale. In every
  locale, the only characters whose lower-case form ends in `t` or `x` are
  `t`, `T`, `x` and `X`, and only `.` lower-cases to `.`. So the `.txt` test
  is exactly the ASCII test on the last four characters.

## Model

All source paths are under `lucene-demo/src/main/java/com/example/lucene/`.

| member | source | states |
|---|---|---|
| Ascii.Lower | lucene-demo/src/main/java/com/example/lucene/App.java:145 | lower-casing keeps the length, and each character of the result is the lower-case form of the character at the same position |
| Ascii.EqualsIgnoreCaseIff | lucene-demo/src/main/java/com/example/lucene/App.java:94 | `equalsIgnoreCase` holds exactly when both strings lower-case to the same string (both directions) |
| Split.IndexOf | lucene-demo/src/main/java/com/example/lucene/App.java:98 | the first space is found when there is one: the character there is the separator and none occurs before it; nothing is found exactly when the line has no separator |
| Split.SplitLimit | lucene-demo/src/main/java/com/example/lucene/App.java:98 | a split with a positive limit gives at least one part and never more parts than the limit |
| Split.JoinSplit | lucene-demo/src/main/java/com/example/lucene/App.java:98 | splitting loses nothing: the parts joined with the separator give back the line, so empty leading and trailing parts are kept |
| Split.SplitWellCut | lucene-demo/src/main/java/com/example/lucene/App.java:98 | no part before the last holds the separator; the last holds one only when the limit cut the splitting short |
| Split.SplitLength | lucene-demo/src/main/java/com/example/lucene/App.java:98-99 | the number of parts is one more than the number of separators, capped at the limit, so with limit 2 a line has fewer than 2 parts exactly when it has no space |
| Split.SplitUnique | lucene-demo/src/main/java/com/example/lucene/App.java:98 | any well-shaped cut of the line that joins back to it is the split |
| Split.SplitCharacterisation | lucene-demo/src/main/java/com/example/lucene/App.java:98 | a sequence of parts is the split of a line if and only if it is well shaped and joins back to the line |
| Split.SplitTwo | lucene-demo/src/main/java/com/example/lucene/App.java:98-99 | with limit 2, a line without the separator is one part, and otherwise the parts are the text before and after the first separator |
| Analysis.GetAnalyzer | lucene-demo/src/main/java/com/example/lucene/App.java:57-63 | the configuration lists exactly the fields `filename` and `content` |
| Analysis.AnalyzerSelection | lucene-demo/src/main/java/com/example/lucene/App.java:57-63 | selection is total: `filename` gets Standard, `content` gets Italian, and a field gets Italian if and only if it is `content` (every other field falls back to the default Standard) |
| Commands.FieldNamed | lucene-demo/src/main/java/com/example/lucene/App.java:104-112 | a recognised field word always names `filename` or `content` |
| Commands.FieldNamedIff | lucene-demo/src/main/java/com/example/lucene/App.java:104-112 | a word names `filename` if and only if it lower-cases to `nome`, names `content` if and only if it lower-cases to `contenuto`, and names nothing otherwise |
| Commands.Classify | lucene-demo/src/main/java/com/example/lucene/App.java:90-120 | every search names one of the two indexed fields and asks for at most 10 hits |
| Commands.QuitIff | lucene-demo/src/main/java/com/example/lucene/App.java:94-96 | a line quits if and only if it is `q` or `Q` |
| Commands.InvalidSyntaxIff | lucene-demo/src/main/java/com/example/lucene/App.java:98-102 | a line is a syntax error if and only if it has no space and is not `q` or `Q`; this includes the empty line |
| Commands.ClassifyAtFirstSpace | lucene-demo/src/main/java/com/example/lucene/App.java:98-113 | for a line whose first space is at position i, the outcome is determined by the word before i: `nome` gives a search of `filename` and `contenuto` a search of `content`, both for exactly the text after i and 10 hits; any other word is a field error |
| Commands.SearchQueryIsSuffix | lucene-demo/src/main/java/com/example/lucene/App.java:98-113 | a search's query is a suffix of the line, right after a space |
| Commands.ClassifyWordAndQuery | lucene-demo/src/main/java/com/example/lucene/App.java:98-113 | a space-free word, a space and any query give back that query verbatim, inner and trailing spaces included, under the field the word names, or a field error |
| Commands.FieldOfWordNamed | lucene-demo/src/main/java/com/example/lucene/App.java:104-108 | for a word that lower-cases to `nome` or `contenuto`, the field named by the word is the one the field-word match at lines 105-108 selects |
| Commands.TrailingSpaceSearchesEmpty | lucene-demo/src/main/java/com/example/lucene/App.java:98-113 | a field word followed by a lone space is a search for the empty query on the field the word names (`filename` for `nome`, `content` for `contenuto`), with 10 hits; it is not a syntax error |
| Commands.LeadingSpaceIsInvalidField | lucene-demo/src/main/java/com/example/lucene/App.java:98-111 | a line starting with a space has an empty field word and is a field error |
| Commands.QuitWordWithSpaceIsInvalidField | lucene-demo/src/main/java/com/example/lucene/App.java:94-111 | `q` or `Q` followed by a space does not quit; it is split and is a field error |
| Indexing.Fields | lucene-demo/src/main/java/com/example/lucene/App.java:147-150 | a document is written as two fields: `filename` holds the file name and is tokenised by the Standard analyzer, and `content` holds the text and is tokenised by the Italian analyzer. This follows from the writer's configuration `getAnalyzer()` (lines 59-60, 70-73) |
| Indexing.IndexTextFiles | lucene-demo/src/main/java/com/example/lucene/App.java:136-152 | every document the walk adds has a name that passes the `.txt` test |
| Indexing.IndexListing | lucene-demo/src/main/java/com/example/lucene/App.java:138-144 | every document added from a directory listing has a name that passes the `.txt` test |
| Indexing.IndexedAreSelectedFiles | lucene-demo/src/main/java/com/example/lucene/App.java:136-152 | the documents are exactly the reachable files that pass the `.txt` test, one each, in visiting order |
| Indexing.ListingIndexedAreSelectedFiles | lucene-demo/src/main/java/com/example/lucene/App.java:138-144 | the same for a directory listing: the documents are its reachable `.txt` files, in order |
| Indexing.IndexedIff | lucene-demo/src/main/java/com/example/lucene/App.java:136-152 | a (name, text) pair is indexed if and only if a reachable file has that name and text and its name passes the `.txt` test |
| Indexing.TextFileNameIff | lucene-demo/src/main/java/com/example/lucene/App.java:145 | a name passes the `.txt` test if and only if it has at least four characters and ends in `.`, `t`/`T`, `x`/`X`, `t`/`T` |
| Indexing.ExampleNames | lucene-demo/src/main/java/com/example/lucene/App.java:145 | `A.TXT`, `note.Txt` and `.txt` are indexed; `a.txt.bak` and `txt` are not |
| Session.Run | lucene-demo/src/main/java/com/example/lucene/App.java:90-116 | the session answers at most one reply per line, and it ends by running out of input exactly when every line got a reply |
| Session.RunAnswersEachLine | lucene-demo/src/main/java/com/example/lucene/App.java:90-116 | each line before the last read gets its reply in order: a hint for an error, hits for a parsed search. The session then ends at a `q`, at a search whose query the parser rejects, or when no line is left. A search that fails inside Lucene is not one of the modelled endings |
| Session.UnreadLinesIgnored | lucene-demo/src/main/java/com/example/lucene/App.java:90-96 | after `q` or a rejected query, further input is never read and changes nothing |
| Session.ExhaustedRunsOn | lucene-demo/src/main/java/com/example/lucene/App.java:90-92 | input that is read to the end without stopping continues into the lines that follow it: replies concatenate and the ending is that of the later lines |
| Session.HitsAreBounded | lucene-demo/src/main/java/com/example/lucene/App.java:104-120 | every search the session runs has `filename` or `content` as its query parser's default field, and asks for at most 10 hits |
| Session.SearchedFieldIsIndexed | lucene-demo/src/main/java/com/example/lucene/App.java:70-149 | for every session and every document, each search's default field is a field the document was indexed under. Its query parser analyses each of the document's fields, whichever one a clause names, with the analyzer that tokenised that field at indexing |
| Session.HitsUseConfiguration | lucene-demo/src/main/java/com/example/lucene/App.java:88-116 | every search of a session builds its query parser over the program's analyzer configuration, with `filename` or `content` as the default field |
| Session.ConfigurationMatchesFields | lucene-demo/src/main/java/com/example/lucene/App.java:57-73 | for each field of a document, the configuration selects the same analyzer the writer used for that field |
| Session.EmptyQueryEndsSession | lucene-demo/src/main/java/com/example/lucene/App.java:113-116 | a field word with a trailing space goes to the parser as an empty query on the field the word names; if the parser rejects it, the session ends at once with no reply, failing on that field and the empty query, whatever input follows |

## Left out

- Lucene's analyzers (tokenising, stop words, Italian stemming) are only named by kind. Their code is not part of this model.
- Index writing, the SimpleText codec and the `CREATE` open mode (App.java:73-80) belong to Lucene and are not modelled.
- Lucene's query parser grammar is not modelled. Its verdict is the parameter `parses`, which is given the default field, the per-field configuration and the query text, so the fact that it rejects the empty query is an assumption, not a proof.
- A failing search also ends the session: an `IOException` from `searcher.search` or `searcher.doc` (App.java:120, 126) is not caught inside the loop, leaves `search` (App.java:85) and is reported by `main` (App.java:48-50). The model assumes every parsed query is searched successfully, so a parsed search is always answered with `Hits`.
- Session.RunAnswersEachLine: lists `q`, a rejected query and the end of input as the ways a session ends. It leaves out a search that fails with an `IOException`, for the reason in the line above.
- Search scoring and the hits themselves are not modelled. A `Hits` reply records only the default field, the configuration, the query and the requested count.
- Console output is not modelled: prompts, hints, `query.toString`, the numbered result lines and the final message (App.java:91, 100, 110, 118-128, 132).
- The `main` method is not modelled (App.java:41-55). This covers opening and closing the index directory, catching and printing `IOException` and `ParseException`, and the skipped `close()` after a parse failure.
- Reading file bytes and decoding them with the platform charset are left out (App.java:149). A file's text is given directly as a string.
- An `IOException` while reading a file is not modelled. In the code it aborts the whole indexing run.
- The order of `listFiles` is not modelled: it is whatever order the directory listing has in the tree.
- A path that exists neither as a directory nor as a file is treated like a file. In the code, such a path with a `.txt` name makes `readAllBytes` fail.
- Scanner behaviour beyond producing lines is not modelled, such as line terminators. End of input ends the session as `InputExhausted`, because `nextLine` throws and nothing catches it.
- The hard-coded index and data paths are configuration only (App.java:38-39).
- `String.split` with a regular-expression separator, or with a limit of zero or less, is not modelled. The program uses neither.
- No inverted index, posting lists, stored-index format, scorer or phrase queries are modelled; Lucene supplies them, and the program's code contains none of them.
- Ascii.Lower: folds ASCII letters only, not all of Unicode as `toLowerCase` does. This is enough for the `.txt` test (see Case folding above).
- Ascii.EqualsIgnoreCaseIff: states ASCII case-insensitive equality only. This is enough for the literals `q`, `nome` and `contenuto` (see Case folding above).
- Session.HitsAreBounded: bounds the number of hits requested, not the number Lucene returns. The result list is not modelled.
- Session.HitsAreBounded: bounds only the query parser's default field. A query text can name its own field (`nome altro:x`), and Lucene then searches that field, which may be one no document has. The query grammar is not modelled.
- Session.SearchedFieldIsIndexed: promises that the default field is indexed, not that every field a clause of the query names is. A clause naming another field is analysed with that field's analyzer from the same configuration (the Standard default for an unlisted field) and searches it whether or not documents carry it.
- Directory links are not modelled: the file system is a finite tree. `isDirectory` and `listFiles` follow symbolic links, so a link to an ancestor directory makes the program's walk (App.java:138-142) recurse until the stack overflows. The model cannot express that input.

=== FILE: analysis.dfy ===
/**
  The per-field analyzer configuration: a default analyzer plus a map from
  field name to analyzer, built by one function and used both to index and
  to parse queries. The analyzers themselves (tokenising, stop words,
  stemming) are only named here, by their kind.
 */
module Analysis {

  /** The two indexed fields of every document. */
  const FilenameField: string := "filename"
  const ContentField: string := "content"

  /** The analyzer variants the program configures. */
  datatype AnalyzerKind = Standard | Italian

  /** A default analyzer and the fields that override it. */
  datatype PerFieldAnalyzer = PerFieldAnalyzer(default: AnalyzerKind, perField: map<string, AnalyzerKind>) {

    /** The analyzer applied to `field`: its own entry if it has one, the default otherwise. */
    function AnalyzerFor(field: string): (kind: AnalyzerKind)
      ensures field in perField ==> kind == perField[field]
      ensures field !in perField ==> kind == default
    {
      if field in perField then perField[field] else default
    }
  }

  /** The configuration the program builds: standard by default, Italian for the content. */
  function GetAnalyzer(): (a: PerFieldAnalyzer)
    ensures a.perField.Keys == {FilenameField, ContentField}
  {
    PerFieldAnalyzer(Standard, map[FilenameField := Standard, ContentField := Italian])
  }

  /**
    Selection is total and picks Italian for the content field only: the
    file name and every field the configuration does not list get the
    standard analyzer.
   */
  lemma AnalyzerSelection(field: string)
    ensures GetAnalyzer().AnalyzerFor(FilenameField) == Standard
    ensures GetAnalyzer().AnalyzerFor(ContentField) == Italian
    ensures GetAnalyzer().AnalyzerFor(field) == Italian <==> field == ContentField
    ensures GetAnalyzer().AnalyzerFor(field) == Standard <==> field != ContentField
  {
  }
}

=== FILE: ascii.dfy ===
/**
  ASCII case folding: the model of `String.toLowerCase` and
  `String.equalsIgnoreCase` as the program uses them. Only the letters
  'A'..'Z' and 'a'..'z' change case; every other character folds to itself.
 */
module Ascii {

  predicate IsUpper(c: char) {
    'A' <= c <= 'Z'
  }

  predicate IsLower(c: char) {
    'a' <= c <= 'z'
  }

  /** Lower-cases one character; only upper-case letters change. */
  function ToLower(c: char): (d: char)
    ensures !IsUpper(d)
    ensures d != c ==> IsUpper(c) && IsLower(d)
  {
    if IsUpper(c) then (c as int + 32) as char else c
  }

  /** Upper-cases one character; only lower-case letters change. */
  function ToUpper(c: char): (d: char)
    ensures !IsLower(d)
    ensures d != c ==> IsLower(c) && IsUpper(d)
  {
    if IsLower(c) then (c as int - 32) as char else c
  }

  /** `s.toLowerCase()`: the string with every character lower-cased. */
  function Lower(s: string): (t: string)
    ensures |t| == |s|
    ensures forall i :: 0 <= i < |s| ==> t[i] == ToLower(s[i])
  {
    if s == [] then [] else [ToLower(s[0])] + Lower(s[1..])
  }

  /** Two characters are equal ignoring case. */
  predicate CharEqualsIgnoreCase(x: char, y: char) {
    x == y || ToUpper(x) == ToUpper(y) || ToLower(x) == ToLower(y)
  }

  /** `a.equalsIgnoreCase(b)`: same length and pairwise equal ignoring case. */
  predicate EqualsIgnoreCase(a: string, b: string) {
    |a| == |b| && forall i :: 0 <= i < |a| ==> CharEqualsIgnoreCase(a[i], b[i])
  }

  /** Equality ignoring case of characters is equality after lower-casing. */
  lemma CharEqualsIgnoreCaseIff(x: char, y: char)
    ensures CharEqualsIgnoreCase(x, y) <==> ToLower(x) == ToLower(y)
  {
  }

  /** A string without upper-case letters is its own lower-case form. */
  lemma LowerOfLowerCase(s: string)
    requires forall i :: 0 <= i < |s| ==> !IsUpper(s[i])
    ensures Lower(s) == s
  {
  }

  /** `equalsIgnoreCase` holds exactly when both strings lower-case to the same string. */
  lemma EqualsIgnoreCaseIff(a: string, b: string)
    ensures EqualsIgnoreCase(a, b) <==> Lower(a) == Lower(b)
  {
    if EqualsIgnoreCase(a, b) {
      forall i | 0 <= i < |a|
        ensures Lower(a)[i] == Lower(b)[i]
      {
        CharEqualsIgnoreCaseIff(a[i], b[i]);
      }
    }
    if Lower(a) == Lower(b) {
      forall i | 0 <= i < |a|
        ensures CharEqualsIgnoreCase(a[i], b[i])
      {
        assert Lower(a)[i] == Lower(b)[i];
        CharEqualsIgnoreCaseIff(a[i], b[i]);
      }
    }
  }

  /** A string equals an all-lower-case literal ignoring case iff it lower-cases to it. */
  lemma EqualsLowerLiteral(lit: string, s: string)
    requires Lower(lit) == lit
    ensures EqualsIgnoreCase(lit, s) <==> Lower(s) == lit
  {
    EqualsIgnoreCaseIff(lit, s);
  }
}

=== FILE: commands.dfy ===
/**
  The classification of one line typed at the search prompt: `q` in any
  case quits; otherwise the line is split at its first space into a field
  word and a query string, the field word is matched ignoring case against
  `nome` (the file name) and `contenuto` (the content), and a match becomes
  a search for the ten best hits.
 */
module Commands {
  import opened Optional
  import opened Ascii
  import opened Split
  import opened Analysis

  /** The number of hits each search asks for. */
  const MaxHits: nat := 10

  /** What one input line asks for. */
  datatype Command =
    | Quit
    | InvalidSyntax
    | InvalidField
    | Search(field: string, query: string, topK: nat)

  /** The field a field word names, if it names one. */
  function FieldNamed(word: string): (field: Option<string>)
    ensures field.Some? ==> field.value in {FilenameField, ContentField}
  {
    if EqualsIgnoreCase("nome", word) then Some(FilenameField)
    else if EqualsIgnoreCase("contenuto", word) then Some(ContentField)
    else None
  }

  /** Classifies one input line. */
  function Classify(line: string): (c: Command)
    ensures c.Search? ==> c.field in {FilenameField, ContentField}
    ensures c.Search? ==> c.topK <= MaxHits
  {
    if EqualsIgnoreCase("q", line) then Quit
    else
      var parts := SplitLimit(line, ' ', 2);
      if |parts| < 2 then InvalidSyntax
      else
        match FieldNamed(parts[0])
        case None => InvalidField
        case Some(field) => Search(field, parts[1], MaxHits)
  }

  /** The literals the program compares against are already lower case. */
  lemma LiteralsAreLowerCase()
    ensures Lower("q") == "q"
    ensures Lower("nome") == "nome"
    ensures Lower("contenuto") == "contenuto"
  {
    LowerOfLowerCase("q");
    LowerOfLowerCase("nome");
    LowerOfLowerCase("contenuto");
  }

  /** A field word names the file name or the content exactly when it lower-cases to `nome` or `contenuto`. */
  lemma FieldNamedIff(word: string)
    ensures FieldNamed(word) == Some(FilenameField) <==> Lower(word) == "nome"
    ensures FieldNamed(word) == Some(ContentField) <==> Lower(word) == "contenuto"
    ensures FieldNamed(word) == None <==> Lower(word) != "nome" && Lower(word) != "contenuto"
  {
    LiteralsAreLowerCase();
    EqualsLowerLiteral("nome", word);
    EqualsLowerLiteral("contenuto", word);
  }

  /** A line lower-cases to `q` exactly when it is `q` or `Q`. */
  lemma LowerIsQ(line: string)
    ensures Lower(line) == "q" <==> line == "q" || line == "Q"
  {
    if |line| == 1 {
      assert Lower(line) == [ToLower(line[0])];
      if line[0] == 'Q' {
        assert line == "Q";
      }
    }
  }

  /** A line quits exactly when it is `q` or `Q`, before any splitting. */
  lemma QuitIff(line: string)
    ensures Classify(line) == Quit <==> line == "q" || line == "Q"
  {
    LiteralsAreLowerCase();
    EqualsLowerLiteral("q", line);
    LowerIsQ(line);
  }

  /** A line without a space, the empty line included, is a syntax error unless it quits. */
  lemma InvalidSyntaxIff(line: string)
    ensures Classify(line) == InvalidSyntax <==> ' ' !in line && line != "q" && line != "Q"
  {
    QuitIff(line);
    SplitLength(line, ' ', 2);
    CountZero(line, ' ');
  }

  /**
    A line whose first space is at `i` is a search of the field its first
    word names, for exactly the rest of the line after that space, or a
    field error when the first word names no field.
   */
  lemma ClassifyAtFirstSpace(line: string, i: nat)
    requires i < |line| && line[i] == ' ' && ' ' !in line[..i]
    ensures var word := Lower(line[..i]);
      Classify(line) ==
        if word == "nome" then Search(FilenameField, line[i + 1..], MaxHits)
        else if word == "contenuto" then Search(ContentField, line[i + 1..], MaxHits)
        else InvalidField
  {
    QuitIff(line);
    SplitTwo(line, ' ');
    FieldNamedIff(line[..i]);
  }

  /** The query of a search is the end of the line, just after a space. */
  lemma SearchQueryIsSuffix(line: string)
    ensures var c := Classify(line);
      c.Search? ==> |c.query| < |line| && line[|line| - |c.query| - 1..] == [' '] + c.query
  {
    if Classify(line).Search? {
      var parts := SplitLimit(line, ' ', 2);
      JoinSplit(line, ' ', 2);
      assert parts == [parts[0]] + [parts[1]];
      JoinCons(parts[0], [parts[1]], ' ');
      assert Join([parts[1]], ' ') == parts[1];
    }
  }

  /**
    A field word, a space and any query: the query comes back verbatim,
    spaces included, under the field the word names.
   */
  lemma ClassifyWordAndQuery(word: string, query: string)
    requires ' ' !in word
    ensures Classify(word + " " + query) ==
      if Lower(word) == "nome" then Search(FilenameField, query, MaxHits)
      else if Lower(word) == "contenuto" then Search(ContentField, query, MaxHits)
      else InvalidField
  {
    var line := word + " " + query;
    var i := |word|;
    assert line[..i] == word;
    assert line[i + 1..] == query;
    ClassifyAtFirstSpace(line, i);
  }

  /**
    The field a recognised field word names: `filename` for `nome` and
    `content` for `contenuto`. Only meaningful for a word `FieldNamed`
    recognises; `FieldOfWordNamed` ties the two together.
   */
  function FieldOfWord(word: string): string {
    if Lower(word) == "nome" then FilenameField else ContentField
  }

  /** For a recognised field word, `FieldOfWord` is the field `FieldNamed` finds. */
  lemma FieldOfWordNamed(word: string)
    requires Lower(word) == "nome" || Lower(word) == "contenuto"
    ensures FieldNamed(word) == Some(FieldOfWord(word))
  {
    FieldNamedIff(word);
  }

  /** A field word followed by a lone space searches for the empty query; it is not a syntax error. */
  lemma TrailingSpaceSearchesEmpty(word: string)
    requires Lower(word) == "nome" || Lower(word) == "contenuto"
    ensures Classify(word + " ") == Search(FieldOfWord(word), "", MaxHits)
  {
    ClassifyWordAndQuery(word, "");
    assert word + " " + "" == word + " ";
  }

  /** A leading space leaves the field word empty, which names no field. */
  lemma LeadingSpaceIsInvalidField(rest: string)
    ensures Classify(" " + rest) == InvalidField
  {
    ClassifyWordAndQuery("", rest);
    assert "" + " " + rest == " " + rest;
  }

  /** `q` followed by a space is not a quit: it is split, and `q` names no field. */
  lemma QuitWordWithSpaceIsInvalidField(rest: string)
    ensures Classify("q " + rest) == InvalidField
    ensures Classify("Q " + rest) == InvalidField
  {
    ClassifyWordAndQuery("q", rest);
    assert "q" + " " + rest == "q " + rest;
    ClassifyWordAndQuery("Q", rest);
    assert "Q" + " " + rest == "Q " + rest;
    LowerIsQ("q");
    LowerIsQ("Q");
  }
}

=== FILE: indexing.dfy ===
/**
  Choosing the documents to index: the data directory is walked depth
  first, directories in the order their listing gives, and every file whose
  lower-cased name ends with `.txt` becomes one document holding its name
  and its text. The file system is a value here: a tree whose directories
  carry their listing, and a flag for a listing that could not be read.
 */
module Indexing {
  import opened Ascii
  import opened Analysis

  const TextSuffix: string := ".txt"

  /** A node of the walked tree: a file with its text, or a directory with its listing. */
  datatype Node =
    | File(name: string, text: string)
    | Directory(name: string, listing: seq<Node>, listable: bool)

  /** A document: the file name and the file text, both stored and analysed. */
  datatype Document = Document(filename: string, content: string)

  /** A field as the index writer stores it: its name, its text and the analyzer that tokenised it. */
  datatype IndexedField = IndexedField(name: string, value: string, analyzer: AnalyzerKind)

  /**
    The fields the index writer makes of a document. The writer is
    configured with `GetAnalyzer()`, so each field is analysed by whatever
    that configuration selects for the field's name: the file name by the
    standard analyzer, the text by the Italian one.
   */
  function Fields(d: Document): (fs: seq<IndexedField>)
    ensures |fs| == 2
    ensures fs[0].name == FilenameField && fs[0].value == d.filename && fs[0].analyzer == Standard
    ensures fs[1].name == ContentField && fs[1].value == d.content && fs[1].analyzer == Italian
  {
    var config := GetAnalyzer();
    [ IndexedField(FilenameField, d.filename, config.AnalyzerFor(FilenameField)),
      IndexedField(ContentField, d.content, config.AnalyzerFor(ContentField)) ]
  }

  predicate EndsWith(s: string, suffix: string) {
    |suffix| <= |s| && s[|s| - |suffix|..] == suffix
  }

  /** A file is indexed when its lower-cased name ends with `.txt`. */
  predicate IsTextFileName(name: string) {
    EndsWith(Lower(name), TextSuffix)
  }

  /** The documents one file contributes. */
  function FileDocuments(f: Node): (docs: seq<Document>)
    requires f.File?
    ensures docs == [] || docs == [Document(f.name, f.text)]
    ensures docs != [] <==> IsTextFileName(f.name)
  {
    if IsTextFileName(f.name) then [Document(f.name, f.text)] else []
  }

  /** The documents the walk from `n` adds, in the order they are added. */
  function IndexTextFiles(n: Node): (docs: seq<Document>)
    ensures forall k :: 0 <= k < |docs| ==> IsTextFileName(docs[k].filename)
    decreases n, 1
  {
    match n
    case File(_, _) => FileDocuments(n)
    case Directory(_, listing, listable) => if listable then IndexListing(listing) else []
  }

  /** The documents the walks from the nodes of a listing add, one after the other. */
  function IndexListing(ns: seq<Node>): (docs: seq<Document>)
    ensures forall k :: 0 <= k < |docs| ==> IsTextFileName(docs[k].filename)
    decreases ns, 0
  {
    if ns == [] then []
    else
      var first := IndexTextFiles(ns[0]);
      var rest := IndexListing(ns[1..]);
      assert forall k :: |first| <= k < |first + rest| ==> (first + rest)[k] == rest[k - |first|];
      first + rest
  }

  /** Every file the walk reaches, whatever its name, in visiting order. */
  function Files(n: Node): (files: seq<Node>)
    ensures forall k :: 0 <= k < |files| ==> files[k].File?
    decreases n, 1
  {
    match n
    case File(_, _) => [n]
    case Directory(_, listing, listable) => if listable then FilesOfListing(listing) else []
  }

  function FilesOfListing(ns: seq<Node>): (files: seq<Node>)
    ensures forall k :: 0 <= k < |files| ==> files[k].File?
    decreases ns, 0
  {
    if ns == [] then []
    else
      var first := Files(ns[0]);
      var rest := FilesOfListing(ns[1..]);
      assert forall k :: |first| <= k < |first + rest| ==> (first + rest)[k] == rest[k - |first|];
      first + rest
  }

  /** The documents of a sequence of files: one per `.txt` name, in order. */
  function SelectText(files: seq<Node>): seq<Document>
    requires forall k :: 0 <= k < |files| ==> files[k].File?
  {
    if files == [] then [] else FileDocuments(files[0]) + SelectText(files[1..])
  }

  lemma {:induction false} SelectTextAppend(a: seq<Node>, b: seq<Node>)
    requires forall k :: 0 <= k < |a| ==> a[k].File?
    requires forall k :: 0 <= k < |b| ==> b[k].File?
    ensures SelectText(a + b) == SelectText(a) + SelectText(b)
    decreases |a|
  {
    if a != [] {
      assert (a + b)[1..] == a[1..] + b;
      SelectTextAppend(a[1..], b);
    } else {
      assert a + b == b;
    }
  }

  /**
    The walk indexes exactly the reachable files whose name passes the
    `.txt` test, each once, in visiting order.
   */
  lemma {:induction false} IndexedAreSelectedFiles(n: Node)
    ensures IndexTextFiles(n) == SelectText(Files(n))
    decreases n, 1
  {
    match n
    case File(_, _) =>
      assert [n][1..] == [];
    case Directory(_, listing, listable) =>
      if listable {
        ListingIndexedAreSelectedFiles(listing);
      }
  }

  lemma {:induction false} ListingIndexedAreSelectedFiles(ns: seq<Node>)
    ensures IndexListing(ns) == SelectText(FilesOfListing(ns))
    decreases ns, 0
  {
    if ns != [] {
      IndexedAreSelectedFiles(ns[0]);
      ListingIndexedAreSelectedFiles(ns[1..]);
      SelectTextAppend(Files(ns[0]), FilesOfListing(ns[1..]));
    }
  }

  /** A reachable file becomes a document exactly when its name passes the `.txt` test. */
  lemma {:induction false} SelectTextMembers(files: seq<Node>, name: string, text: string)
    requires forall k :: 0 <= k < |files| ==> files[k].File?
    ensures Document(name, text) in SelectText(files) <==> File(name, text) in files && IsTextFileName(name)
    decreases |files|
  {
    if files != [] {
      SelectTextMembers(files[1..], name, text);
      assert files == [files[0]] + files[1..];
    }
  }

  /** The documents of a walk are the reachable `.txt` files, both ways. */
  lemma IndexedIff(n: Node, name: string, text: string)
    ensures Document(name, text) in IndexTextFiles(n) <==> File(name, text) in Files(n) && IsTextFileName(name)
  {
    IndexedAreSelectedFiles(n);
    SelectTextMembers(Files(n), name, text);
  }

  /** A character lower-cases to the lower-case letter `l` exactly when it is `l` or `u`. */
  lemma ToLowerIs(c: char, l: char, u: char)
    requires IsLower(l) && u as int == l as int - 32
    ensures ToLower(c) == l <==> c == l || c == u
  {
  }

  /** The `.txt` test only looks at the last four characters, ignoring their case. */
  lemma TextFileNameIff(name: string)
    ensures IsTextFileName(name) <==>
      && |name| >= 4
      && name[|name| - 4] == '.'
      && (name[|name| - 3] == 't' || name[|name| - 3] == 'T')
      && (name[|name| - 2] == 'x' || name[|name| - 2] == 'X')
      && (name[|name| - 1] == 't' || name[|name| - 1] == 'T')
  {
    var low := Lower(name);
    var n := |name|;
    if n >= 4 {
      var tail := low[n - 4..];
      assert tail == TextSuffix <==>
        tail[0] == '.' && tail[1] == 't' && tail[2] == 'x' && tail[3] == 't';
      assert tail[0] == ToLower(name[n - 4]);
      assert tail[1] == ToLower(name[n - 3]);
      assert tail[2] == ToLower(name[n - 2]);
      assert tail[3] == ToLower(name[n - 1]);
      ToLowerIs(name[n - 3], 't', 'T');
      ToLowerIs(name[n - 2], 'x', 'X');
      ToLowerIs(name[n - 1], 't', 'T');
    }
  }

  /** Upper-case extensions are indexed; a `.txt` inside the name or a bare `txt` is not. */
  lemma ExampleNames()
    ensures IsTextFileName("A.TXT")
    ensures IsTextFileName("note.Txt")
    ensures IsTextFileName(".txt")
    ensures !IsTextFileName("a.txt.bak")
    ensures !IsTextFileName("txt")
  {
    TextFileNameIff("A.TXT");
    TextFileNameIff("note.Txt");
    TextFileNameIff(".txt");
    TextFileNameIff("a.txt.bak");
    TextFileNameIff("txt");
  }
}

=== FILE: optional.dfy ===
/** An optional value, for searches that may find nothing. */
module Optional {

  datatype Option<+T> = None | Some(value: T)
}

=== FILE: session.dfy ===
/**
  The search prompt as a whole: lines are read one at a time and each one is
  classified. A syntax or field error prints a hint and the next line is
  read; a search prints its hits and the next line is read; `q` ends the
  session. The model covers two abnormal endings: a query the query parser
  rejects (its exception leaves the loop) and running out of input lines.
  A search that fails in Lucene ends it too; the model takes every parsed
  query to be searched successfully. The query
  parser is built from the field the line names, as its default field, and
  the whole per-field configuration `GetAnalyzer()`; its grammar is a
  parameter: `parses(defaultField, config, query)` says whether it accepts
  the query text.
 */
module Session {
  import opened Ascii
  import opened Analysis
  import opened Commands
  import opened Indexing

  /**
    The query parser's verdict on a query text, given its default field and
    the per-field configuration it analyses each clause with.
   */
  type Parser = (string, PerFieldAnalyzer, string) -> bool

  /** What the program answers to a line that does not end the session. */
  datatype Reply =
    | SyntaxHint
    | FieldHint
    | Hits(defaultField: string, config: PerFieldAnalyzer, query: string, topK: nat)

  /** How the session ended. */
  datatype Ending =
    | Quitted
    | InputExhausted
    | ParseFailed(defaultField: string, query: string)

  /** The answers given, one per line read before the last, and how it ended. */
  datatype Transcript = Transcript(replies: seq<Reply>, ending: Ending)

  /** A line after which the program goes on reading. */
  predicate Continues(line: string, parses: Parser) {
    match Classify(line)
    case Quit => false
    case InvalidSyntax => true
    case InvalidField => true
    case Search(field, query, _) => parses(field, GetAnalyzer(), query)
  }

  /** The answer to a line after which the program goes on reading. */
  function ReplyTo(line: string, parses: Parser): Reply
    requires Continues(line, parses)
  {
    match Classify(line)
    case InvalidSyntax => SyntaxHint
    case InvalidField => FieldHint
    case Search(field, query, topK) => Hits(field, GetAnalyzer(), query, topK)
  }

  /** Runs the prompt over the given input lines. */
  function Run(lines: seq<string>, parses: Parser): (t: Transcript)
    ensures |t.replies| <= |lines|
    ensures t.ending == InputExhausted <==> |t.replies| == |lines|
    decreases |lines|
  {
    if lines == [] then Transcript([], InputExhausted)
    else if !Continues(lines[0], parses) then
      match Classify(lines[0])
      case Search(field, query, _) => Transcript([], ParseFailed(field, query))
      case _ => Transcript([], Quitted)
    else
      var rest := Run(lines[1..], parses);
      Transcript([ReplyTo(lines[0], parses)] + rest.replies, rest.ending)
  }

  /**
    How a line ends the session: a `q` quits, and a search whose query the
    parser rejects fails with that search's default field and query.
   */
  predicate EndedBy(line: string, e: Ending, parses: Parser) {
    && (e == Quitted ==> Classify(line) == Quit)
    && (e.ParseFailed? ==>
          && Classify(line) == Search(e.defaultField, e.query, MaxHits)
          && !parses(e.defaultField, GetAnalyzer(), e.query))
  }

  /**
    Each line read before the last one gets its answer, in order, and the
    session ends on the line after them: at a `q`, at a query the parser
    rejects, or when no line is left.
   */
  lemma {:induction false} RunAnswersEachLine(lines: seq<string>, parses: Parser)
    ensures var t := Run(lines, parses);
      && (forall k :: 0 <= k < |t.replies| ==>
            Continues(lines[k], parses) && t.replies[k] == ReplyTo(lines[k], parses))
      && (t.ending != InputExhausted ==> EndedBy(lines[|t.replies|], t.ending, parses))
    decreases |lines|
  {
    if lines != [] {
      var t := Run(lines, parses);
      if Continues(lines[0], parses) {
        var rest := Run(lines[1..], parses);
        RunAnswersEachLine(lines[1..], parses);
        assert t.replies == [ReplyTo(lines[0], parses)] + rest.replies;
        assert t.ending == rest.ending;
        forall k | 1 <= k < |t.replies|
          ensures lines[k] == lines[1..][k - 1] && t.replies[k] == rest.replies[k - 1]
        {
        }
        if t.ending != InputExhausted {
          assert lines[|t.replies|] == lines[1..][|rest.replies|];
        }
      } else {
        assert t.replies == [];
      }
    }
  }

  /** A line after which the program goes on reading is answered, and the rest of the input runs as before. */
  lemma RunCons(line: string, rest: seq<string>, parses: Parser)
    requires Continues(line, parses)
    ensures Run([line] + rest, parses)
         == Transcript([ReplyTo(line, parses)] + Run(rest, parses).replies, Run(rest, parses).ending)
  {
    assert ([line] + rest)[1..] == rest;
  }

  /** Once the session has ended, further input is never read. */
  lemma {:induction false} UnreadLinesIgnored(lines: seq<string>, more: seq<string>, parses: Parser)
    requires Run(lines, parses).ending != InputExhausted
    ensures Run(lines + more, parses) == Run(lines, parses)
    decreases |lines|
  {
    assert lines != [];
    assert (lines + more)[0] == lines[0];
    if Continues(lines[0], parses) {
      assert (lines + more)[1..] == lines[1..] + more;
      UnreadLinesIgnored(lines[1..], more, parses);
    }
  }

  /** Input that was read to the end runs on into whatever follows it. */
  lemma {:induction false} ExhaustedRunsOn(lines: seq<string>, more: seq<string>, parses: Parser)
    requires Run(lines, parses).ending == InputExhausted
    ensures Run(lines + more, parses).replies == Run(lines, parses).replies + Run(more, parses).replies
    ensures Run(lines + more, parses).ending == Run(more, parses).ending
    decreases |lines|, 1
  {
    if lines == [] {
      assert lines + more == more;
    } else {
      assert lines == [lines[0]] + lines[1..];
      assert lines + more == [lines[0]] + (lines[1..] + more);
      ExhaustedRunsOnStep(lines[0], lines[1..], more, parses);
    }
  }

  /** The step of `ExhaustedRunsOn` for input that starts with an answered line. */
  lemma {:induction false} ExhaustedRunsOnStep(line: string, tail: seq<string>, more: seq<string>, parses: Parser)
    requires Run([line] + tail, parses).ending == InputExhausted
    ensures Run([line] + (tail + more), parses).replies == Run([line] + tail, parses).replies + Run(more, parses).replies
    ensures Run([line] + (tail + more), parses).ending == Run(more, parses).ending
    decreases |tail| + 1, 0
  {
    assert ([line] + tail)[0] == line;
    assert Continues(line, parses);
    RunCons(line, tail, parses);
    RunCons(line, tail + more, parses);
    ExhaustedRunsOn(tail, more, parses);
  }

  /** Every search the session issues has an indexed default field and asks for at most ten hits. */
  lemma HitsAreBounded(lines: seq<string>, parses: Parser)
    ensures forall r :: r in Run(lines, parses).replies && r.Hits? ==>
              r.defaultField in {FilenameField, ContentField} && r.topK <= MaxHits
  {
    var t := Run(lines, parses);
    RunAnswersEachLine(lines, parses);
    forall r | r in t.replies && r.Hits?
      ensures r.defaultField in {FilenameField, ContentField} && r.topK <= MaxHits
    {
      var k :| 0 <= k < |t.replies| && t.replies[k] == r;
      assert Continues(lines[k], parses);
    }
  }

  /**
    Every search the session runs has a default field each document was
    indexed under, and its parser analyses every field of a document,
    whichever field a clause of the query text names, with the analyzer that
    tokenised that field at indexing.
   */
  lemma SearchedFieldIsIndexed(lines: seq<string>, parses: Parser, d: Document)
    ensures forall r :: r in Run(lines, parses).replies && r.Hits? ==>
              && (exists k :: 0 <= k < |Fields(d)| && Fields(d)[k].name == r.defaultField)
              && (forall k :: 0 <= k < |Fields(d)| ==> r.config.AnalyzerFor(Fields(d)[k].name) == Fields(d)[k].analyzer)
  {
    var t := Run(lines, parses);
    var fs := Fields(d);
    HitsUseConfiguration(lines, parses);
    ConfigurationMatchesFields(d);
    forall r | r in t.replies && r.Hits?
      ensures exists k :: 0 <= k < |fs| && fs[k].name == r.defaultField
    {
      if r.defaultField == FilenameField {
        assert fs[0].name == r.defaultField;
      } else {
        assert fs[1].name == r.defaultField;
      }
    }
  }

  /** Every search of a session parses with the program's configuration, on an indexed default field. */
  lemma HitsUseConfiguration(lines: seq<string>, parses: Parser)
    ensures forall r :: r in Run(lines, parses).replies && r.Hits? ==>
              r.config == GetAnalyzer() && r.defaultField in {FilenameField, ContentField}
  {
    var t := Run(lines, parses);
    RunAnswersEachLine(lines, parses);
    forall r | r in t.replies && r.Hits?
      ensures r.config == GetAnalyzer() && r.defaultField in {FilenameField, ContentField}
    {
      var i :| 0 <= i < |t.replies| && t.replies[i] == r;
      assert Continues(lines[i], parses);
    }
  }

  /** The program's configuration selects, for each field of a document, the analyzer it was indexed with. */
  lemma ConfigurationMatchesFields(d: Document)
    ensures forall k :: 0 <= k < |Fields(d)| ==> GetAnalyzer().AnalyzerFor(Fields(d)[k].name) == Fields(d)[k].analyzer
  {
    AnalyzerSelection(FilenameField);
  }

  /**
    A field word with a lone trailing space reaches the query parser with an
    empty query; a parser that rejects it ends the session at once.
   */
  lemma EmptyQueryEndsSession(word: string, more: seq<string>, parses: Parser)
    requires Lower(word) == "nome" || Lower(word) == "contenuto"
    requires !parses(FieldOfWord(word), GetAnalyzer(), "")
    ensures Run([word + " "] + more, parses) == Transcript([], ParseFailed(FieldOfWord(word), ""))
  {
    TrailingSpaceSearchesEmpty(word);
  }
}

=== FILE: split.dfy ===
/**
  `String.split` with a one-character, non-metacharacter separator and a
  positive limit, as `line.split(" ", 2)` uses it: the string is cut at the
  first `limit - 1` occurrences of the separator, the rest of the string is
  the last part, and empty parts (leading, inner and trailing) are kept.
 */
module Split {
  import opened Optional

  /** `s.indexOf(c)`: the position of the first occurrence of `c`, if any. */
  function IndexOf(s: string, c: char): (r: Option<nat>)
    ensures r.None? <==> c !in s
    ensures r.Some? ==> r.value < |s| && s[r.value] == c && c !in s[..r.value]
  {
    if s == [] then None
    else if s[0] == c then Some(0)
    else match IndexOf(s[1..], c)
      case None => None
      case Some(i) =>
        assert s[..i + 1] == [s[0]] + s[1..][..i];
        Some(i + 1)
  }

  /** The parts of `s` cut at separator `sep`, at most `limit` of them. */
  function SplitLimit(s: string, sep: char, limit: nat): (parts: seq<string>)
    requires limit >= 1
    ensures 1 <= |parts| <= limit
    decreases limit
  {
    if limit == 1 then [s]
    else match IndexOf(s, sep)
      case None => [s]
      case Some(i) => [s[..i]] + SplitLimit(s[i + 1..], sep, limit - 1)
  }

  /** The parts glued back together with the separator between them. */
  function Join(parts: seq<string>, sep: char): string {
    if |parts| == 0 then []
    else if |parts| == 1 then parts[0]
    else parts[0] + [sep] + Join(parts[1..], sep)
  }

  /** Number of occurrences of `c` in `s`. */
  function Count(s: string, c: char): nat {
    if s == [] then 0 else (if s[0] == c then 1 else 0) + Count(s[1..], c)
  }

  /** Joining a first part onto at least one more part puts a separator between them. */
  lemma JoinCons(first: string, rest: seq<string>, sep: char)
    requires |rest| >= 1
    ensures Join([first] + rest, sep) == first + [sep] + Join(rest, sep)
  {
    assert ([first] + rest)[1..] == rest;
  }

  /** Without a limit left or a separator to cut at, the whole string is the only part. */
  lemma SplitWhole(s: string, sep: char, limit: nat)
    requires limit >= 1 && (limit == 1 || sep !in s)
    ensures SplitLimit(s, sep, limit) == [s]
  {
  }

  /** Otherwise the string is cut at its first separator and the rest is split further. */
  lemma SplitAt(s: string, sep: char, limit: nat, i: nat)
    requires limit > 1 && IndexOf(s, sep) == Some(i)
    ensures SplitLimit(s, sep, limit) == [s[..i]] + SplitLimit(s[i + 1..], sep, limit - 1)
  {
  }

  /** A string is the part before position `i`, the character there, and the part after. */
  lemma Around(s: string, i: nat)
    requires i < |s|
    ensures s == s[..i] + [s[i]] + s[i + 1..]
  {
  }

  /** Joining the part before a separator onto parts that join to the rest rebuilds the string. */
  lemma JoinAround(s: string, sep: char, i: nat, rest: seq<string>)
    requires i < |s| && s[i] == sep
    requires |rest| >= 1 && Join(rest, sep) == s[i + 1..]
    ensures Join([s[..i]] + rest, sep) == s
  {
    JoinCons(s[..i], rest, sep);
    Around(s, i);
  }

  /** The round trip for a string that is cut at its first separator. */
  lemma {:induction false} JoinSplitStep(s: string, sep: char, limit: nat, i: nat)
    requires limit > 1 && IndexOf(s, sep) == Some(i)
    ensures Join(SplitLimit(s, sep, limit), sep) == s
    decreases limit, 0
  {
    SplitAt(s, sep, limit, i);
    JoinSplit(s[i + 1..], sep, limit - 1);
    JoinAround(s, sep, i, SplitLimit(s[i + 1..], sep, limit - 1));
  }

  /** Splitting loses nothing: joining the parts gives back the string. */
  lemma {:induction false} JoinSplit(s: string, sep: char, limit: nat)
    requires limit >= 1
    ensures Join(SplitLimit(s, sep, limit), sep) == s
    decreases limit, 1
  {
    if limit == 1 || sep !in s {
      SplitWhole(s, sep, limit);
      assert Join([s], sep) == s;
    } else {
      JoinSplitStep(s, sep, limit, IndexOf(s, sep).value);
    }
  }

  /**
    A cut of a string into at most `limit` parts: no part before the last
    holds the separator, and the last holds none unless the limit was reached.
   */
  predicate WellCut(parts: seq<string>, sep: char, limit: nat) {
    && 1 <= |parts| <= limit
    && (forall k :: 0 <= k < |parts| - 1 ==> sep !in parts[k])
    && (|parts| < limit ==> sep !in parts[|parts| - 1])
  }

  /** The parts `SplitLimit` returns form a well-shaped cut. */
  lemma {:induction false} SplitWellCut(s: string, sep: char, limit: nat)
    requires limit >= 1
    ensures WellCut(SplitLimit(s, sep, limit), sep, limit)
    decreases limit
  {
    if limit > 1 && IndexOf(s, sep).Some? {
      var i := IndexOf(s, sep).value;
      var rest := SplitLimit(s[i + 1..], sep, limit - 1);
      assert SplitLimit(s, sep, limit) == [s[..i]] + rest;
      SplitWellCut(s[i + 1..], sep, limit - 1);
      assert WellCut(rest, sep, limit - 1);
    }
  }

  /** Count of a separator in a concatenation with the separator between. */
  lemma {:induction false} CountConcat(a: string, b: string, c: char)
    ensures Count(a + b, c) == Count(a, c) + Count(b, c)
    decreases |a|
  {
    if a != [] {
      assert (a + b)[1..] == a[1..] + b;
      CountConcat(a[1..], b, c);
    } else {
      assert a + b == b;
    }
  }

  /** No occurrence means a count of zero, and vice versa. */
  lemma {:induction false} CountZero(s: string, c: char)
    ensures Count(s, c) == 0 <==> c !in s
    decreases |s|
  {
    if s != [] {
      CountZero(s[1..], c);
      assert s == [s[0]] + s[1..];
    }
  }

  /** The separator count around the first separator. */
  lemma CountAround(s: string, sep: char, i: nat)
    requires i < |s| && s[i] == sep && sep !in s[..i]
    ensures Count(s, sep) == 1 + Count(s[i + 1..], sep)
  {
    Around(s, i);
    CountConcat(s[..i], [sep] + s[i + 1..], sep);
    assert s[..i] + [sep] + s[i + 1..] == s[..i] + ([sep] + s[i + 1..]);
    CountConcat([sep], s[i + 1..], sep);
    CountZero(s[..i], sep);
    assert Count([sep], sep) == 1 by {
      assert [sep][1..] == [];
    }
  }

  /** The number of parts is one more than the number of separators, capped at `limit`. */
  lemma {:induction false} SplitLength(s: string, sep: char, limit: nat)
    requires limit >= 1
    ensures |SplitLimit(s, sep, limit)| == if Count(s, sep) + 1 < limit then Count(s, sep) + 1 else limit
    decreases limit
  {
    CountZero(s, sep);
    if limit == 1 || sep !in s {
      SplitWhole(s, sep, limit);
    } else {
      var i := IndexOf(s, sep).value;
      SplitAt(s, sep, limit, i);
      SplitLength(s[i + 1..], sep, limit - 1);
      CountAround(s, sep, i);
    }
  }

  /** In `a + [sep] + b` with no separator in `a`, the first separator sits right after `a`. */
  lemma FirstSeparator(a: string, sep: char, b: string)
    requires sep !in a
    ensures var s := a + [sep] + b;
      IndexOf(s, sep) == Some(|a|) && s[..|a|] == a && s[|a| + 1..] == b
  {
    var s := a + [sep] + b;
    assert s[..|a|] == a;
    assert s[|a| + 1..] == b;
  }

  /**
    A well-shaped cut that joins back to `s` is the one `SplitLimit` returns:
    the split is the only cut of `s` with that shape.
   */
  lemma {:induction false} SplitUnique(s: string, sep: char, limit: nat, parts: seq<string>)
    requires limit >= 1
    requires WellCut(parts, sep, limit)
    requires Join(parts, sep) == s
    ensures parts == SplitLimit(s, sep, limit)
    decreases limit, 1
  {
    if |parts| == 1 {
      assert parts == [s];
      SplitWhole(s, sep, limit);
    } else {
      var tail := parts[1..];
      assert parts == [parts[0]] + tail;
      JoinCons(parts[0], tail, sep);
      assert WellCut(tail, sep, limit - 1) by {
        forall k | 0 <= k < |tail| - 1
          ensures sep !in tail[k]
        {
          assert tail[k] == parts[k + 1];
        }
      }
      SplitUniqueStep(s, sep, limit, parts[0], tail);
    }
  }

  /** A string made of a separator-free first part, a separator and a well-shaped rest splits into those parts. */
  lemma {:induction false} SplitUniqueStep(s: string, sep: char, limit: nat, first: string, tail: seq<string>)
    requires limit > 1 && sep !in first
    requires WellCut(tail, sep, limit - 1)
    requires s == first + [sep] + Join(tail, sep)
    ensures [first] + tail == SplitLimit(s, sep, limit)
    decreases limit, 0
  {
    FirstSeparator(first, sep, Join(tail, sep));
    SplitAt(s, sep, limit, |first|);
    SplitUnique(Join(tail, sep), sep, limit - 1, tail);
  }

  /** The split is characterised by its shape and the join round trip. */
  lemma SplitCharacterisation(s: string, sep: char, limit: nat, parts: seq<string>)
    requires limit >= 1
    ensures parts == SplitLimit(s, sep, limit) <==> WellCut(parts, sep, limit) && Join(parts, sep) == s
  {
    SplitWellCut(s, sep, limit);
    JoinSplit(s, sep, limit);
    if WellCut(parts, sep, limit) && Join(parts, sep) == s {
      SplitUnique(s, sep, limit, parts);
    }
  }

  /** With limit two, a string with no separator is one part; otherwise it is cut at the first separator. */
  lemma SplitTwo(s: string, sep: char)
    ensures sep !in s ==> SplitLimit(s, sep, 2) == [s]
    ensures forall i :: 0 <= i < |s| && s[i] == sep && sep !in s[..i] ==>
              SplitLimit(s, sep, 2) == [s[..i], s[i + 1..]]
  {
    forall i | 0 <= i < |s| && s[i] == sep && sep !in s[..i]
      ensures SplitLimit(s, sep, 2) == [s[..i], s[i + 1..]]
    {
    }
  }
}
